=== FILE: README.md ===
# Earth wallpaper: the pure core

The program downloads the latest full-disc Earth image from EUMETSAT. It
crops and frames the image, colour-grades it, saves it as
`earth_<date>.png` and, on request, fits it to the screen and sets it as
the desktop wallpaper. This project models the parts of that program that
are plain logic, and proves properties about them:

- **Text** (`text.dfy`): the Python string operations the program relies on.
  These are whitespace `strip()`, the first field of `split()`, `split(sep, 1)`,
  ASCII `lower()` and `replace()`. For `strip()` and `split()`, whitespace is
  Python's `str.isspace` set.
- **Decimal** (`decimal.dfy`): `int(s)` in base 10 and `str(n)`.
  - `int` accepts surrounding whitespace, one optional sign, and digits that
    single underscores may separate; leading zeros are allowed.
  - The whitespace `int` skips is not the `str.isspace` set. Below code
    point 128 it skips only TAB to CR and SPACE. The information separators
    28 to 31 are not skipped, so `int("\x1c5")` fails, although
    `"\x1c5".strip()` removes the first character. Above 127 it skips
    the same characters as `str.isspace`.
  - A ValueError is modelled as `None`.
- **Resolution** (`resolution.dfy`): two things.
  - `_parse_resolution`, the `WIDTHxHEIGHT` argument reader, with its two
    distinct errors.
  - The part of `_detect_resolution` that picks the current mode. This is
    the first line of the `xrandr` listing that holds a `*`; its first
    whitespace-separated token is read as a resolution.
- **Raster** (`raster.dfy`): `crop_bottom_of_image`, `add_black_margin`
  and how `generate_earth_image` combines them with its constants. An
  image is a (height, width, channels) array.
- **Letterbox** (`letterbox.dfy`): the size arithmetic of
  `_fit_image_to_resolution`. It scales the image to fit the screen, keeps
  the aspect ratio, and centres it on a black canvas.
- **DateStamp** (`datestamp.dfy`): the date sanitiser and the output file
  name.

Where the code's behaviour differs from what a reader might expect, the
model follows the code:

- `crop_bottom_of_image(a, 0)` slices `a[:-0]`, which is `a[:0]`: the
  result has no rows, it is not the whole image.
- A crop of at least the height also leaves no rows.
- A negative crop keeps the first `-n` rows.
- `_parse_resolution("1x2x3")` is a format error, not a three-part
  resolution: the text is split once, so `2x3` reaches `int()`.
- Both axes of `WIDTHXHEIGHT` are parsed after lower-casing, so `1920X1080`
  is accepted.
- A height `int()` cannot read is reported as a format error, and so is
  a width. A value that is readable but zero or negative is reported
  separately.

## Model

| member | source | states |
|---|---|---|
| Text.Strip | download_earth_from_eumetsat.py:131 | stripping is the slice that remains after removing the maximal whitespace prefix and suffix. The result is empty exactly when the text is blank, and otherwise starts and ends with a non-space. It is used with `str.isspace` whitespace for `line.strip()` and with `int()`'s narrower set for `int()` |
| Text.FirstField | download_earth_from_eumetsat.py:131 | `split()[0]` of a stripped non-blank line is its longest space-free prefix: non-empty, no whitespace, followed by whitespace or the end |
| Text.SplitOnce | download_earth_from_eumetsat.py:108 | `split("x", 1)` fails to give two parts exactly when there is no separator; otherwise the text is the first part, the separator, the second part, and the first part holds no separator |
| Text.SplitOnceAtFirst | download_earth_from_eumetsat.py:108 | joining a separator-free text, the separator and any rest, then splitting once, gives back the two pieces |
| Text.Lower | download_earth_from_eumetsat.py:108 | `lower()` leaves no uppercase ASCII letter, turns each into its lowercase partner, and keeps every other character in place |
| Text.LowerFindsBothCases | download_earth_from_eumetsat.py:108 | a lowercase letter, such as the separator `x`, occurs in the lower-cased text exactly when it occurs in the original in either case |
| Text.LowerIdempotent | download_earth_from_eumetsat.py:108 | lower-casing twice equals lower-casing once |
| Text.ReplaceChar | download_earth_from_eumetsat.py:70 | `replace(a, b)` keeps the length, turns every `a` into `b`, keeps every other character, and leaves no `a` when `a` differs from `b` |
| Text.ReplaceAbsent | download_earth_from_eumetsat.py:70 | replacing a character that does not occur changes nothing |
| Text.StripPadded | download_earth_from_eumetsat.py:131 | stripping a whitespace-free text padded on both sides with whitespace gives back exactly that text |
| Text.StripCover | download_earth_from_eumetsat.py:109-110 | every character of a text is either whitespace removed by `strip()` or the matching character of the stripped text |
| Decimal.ParseInt | download_earth_from_eumetsat.py:109-110 | `int()` succeeds exactly when the text, stripped of `int()`'s whitespace, is a numeral: an optional sign, then digits that single underscores may separate. Its values are pinned by four lemmas. Plain digits read as their decimal value (Decimal.ParseIntOfDecimal). An underscore between digit groups can be dropped without changing the value (Decimal.ParseBodyDropsUnderscore). A sign applies to the body whatever underscores it holds (Decimal.ParseSignedSign). Surrounding whitespace is ignored (Decimal.ParseIntSpaced, Decimal.ParseIntNoSpace) |
| Decimal.InformationSeparatorRejected | download_earth_from_eumetsat.py:109-112 | a text holding any of the characters 28 to 31 is refused by `int()`, wherever they stand |
| Decimal.ParseIntAlphabet | download_earth_from_eumetsat.py:109-112 | a text `int()` accepts holds only digits, underscores, signs and the whitespace `int()` skips |
| Decimal.ToDecimal | download_earth_from_eumetsat.py:109-110 | `str(n)` of a natural is a non-empty digit string without leading zero whose decimal value is n |
| Decimal.ParseIntOfDecimal | download_earth_from_eumetsat.py:109-110 | `int(str(n)) == n` for every natural n |
| Decimal.ParseIntMinus | download_earth_from_eumetsat.py:109-110 | a minus sign before a digit string gives the negated value |
| Decimal.ParseIntPlus | download_earth_from_eumetsat.py:109-110 | a plus sign before a digit string gives the same value |
| Decimal.ParseIntUnderscore | download_earth_from_eumetsat.py:109-110 | two non-empty digit runs joined by one underscore read as the value of the two runs written together, so `1_920` is 1920 |
| Decimal.ParseIntNoSpace | download_earth_from_eumetsat.py:109-110 | a text without `int()` whitespace is read by `int()` exactly as a numeral, with nothing stripped |
| Decimal.ParseBodyDropsUnderscore | download_earth_from_eumetsat.py:109-110 | removing one underscore between two digit-group strings keeps the body readable and its value unchanged. Applied to each underscore in turn down to plain digits, this fixes the value of every body with any number of underscores: `1_0_0` reads as 100 |
| Decimal.ParseSignedSign | download_earth_from_eumetsat.py:109-110 | before any digit-group body, underscores included, `-` gives the negated value of the body and `+` gives the same value, so `-1_0` is -10 and `+1_920` is 1920 |
| Decimal.ParseSignedBody | download_earth_from_eumetsat.py:109-110 | a numeral with no sign reads as its body |
| Decimal.ParseIntSpaced | download_earth_from_eumetsat.py:109-110 | whitespace that `int()` skips, around a text without such whitespace, does not change what `int()` gives, value or refusal |
| Resolution.ParseResolution | download_earth_from_eumetsat.py:106-115 | success yields two positive sides, equal to `int()` of the two pieces around the first `x` of the lower-cased text; no separator, or a piece `int()` refuses, is exactly the format error. It succeeds exactly when both pieces are readable and positive, so the non-positive error is exactly the remaining case. It is never the detection error |
| Resolution.ParseRendered | download_earth_from_eumetsat.py:106-115 | for all integers w and h, `WIDTHxHEIGHT` (either case of separator) rendered with `str()` parses back to (w, h) when both are positive and is refused as non-positive otherwise |
| Resolution.ParseReadablePieces | download_earth_from_eumetsat.py:108-115 | any text whose lower-cased form splits at its first `x` into two pieces `int()` reads is accepted as those values when both are positive and refused as non-positive otherwise. This covers `01920x1080`, `+1920x1080`, `1_920x1080` and ` 1920x1080`, whose piece values Decimal.ParseIntUnderscore and Decimal.ParseIntSpaced give |
| Resolution.StrayCharacterRejected | download_earth_from_eumetsat.py:108-112 | any character `int()` cannot read, other than the first separator, makes the value a format error, so `1x2x3` is refused |
| Resolution.IntToString | download_earth_from_eumetsat.py:109-110 | `str(n)` is the decimal digits of the magnitude of n, after a minus sign when n is negative. There is no leading zero, neither at the start nor right after the minus sign |
| Resolution.IntToStringParses | download_earth_from_eumetsat.py:109-110 | `int(str(n)) == n` for every integer n, negative ones included |
| Resolution.CurrentModeToken | download_earth_from_eumetsat.py:131 | the token of a line holding `*` is non-empty, has no whitespace and is a prefix of the stripped line. In that line it is followed by whitespace or the end, so it is `split()[0]` |
| Resolution.FirstStarred | download_earth_from_eumetsat.py:129-132 | the loop stops at the first line holding `*`: that line holds one and no earlier line does; it runs to the end exactly when no line holds one |
| Resolution.DetectResolution | download_earth_from_eumetsat.py:129-133 | the detection error occurs exactly when no line holds `*`; otherwise the result is the parse of the token of the first such line |
| Resolution.DetectIgnoresLaterLines | download_earth_from_eumetsat.py:129-132 | once a line holds `*`, lines appended after it do not change the result |
| Raster.SliceEnd | download_earth_from_eumetsat.py:32 | a Python slice stop always lands inside the sequence |
| Raster.CropBottom | download_earth_from_eumetsat.py:31-32 | width and channels are kept; a crop of n rows with 0 < n < height keeps exactly the top height − n rows; n = 0 or n ≥ height leaves no rows; a negative n keeps the first −n rows |
| Raster.AddBlackMargin | download_earth_from_eumetsat.py:35-37 | the result is (h + 2n, w + 2n, c); each original sample moves by (n, n), and every other sample is black |
| Raster.Interior | download_earth_from_eumetsat.py:35-37 | trimming n from each edge gives a well-formed raster 2n smaller on each spatial axis |
| Raster.MarginRoundTrip | download_earth_from_eumetsat.py:35-37 | trimming the margin off a padded raster gives back the original |
| Raster.ZeroMarginIsIdentity | download_earth_from_eumetsat.py:35-37 | a zero-width margin leaves the raster unchanged |
| Raster.FrameImage | download_earth_from_eumetsat.py:75-93 | cropping 79 rows then padding by 50 gives the stated shape; the kept top rows sit at offset (50, 50); everything outside them is black, and an image of at most 79 rows becomes pure frame |
| Letterbox.RoundHalfEven | download_earth_from_eumetsat.py:145-148 | `round(p / q)` is within half a step of p / q, and on an exact tie it is even |
| Letterbox.RoundIsUnique | download_earth_from_eumetsat.py:145-148 | any integer meeting those two conditions is the rounded value |
| Letterbox.RoundIsZero | download_earth_from_eumetsat.py:145-148 | `round(p / q)` is zero exactly when p / q is at most a half |
| Letterbox.ScaledSide | download_earth_from_eumetsat.py:145-148 | `max(1, int(round(num / den)))` is 1 when num / den is at most a half. Otherwise it is within half a pixel of num / den, and even on an exact tie |
| Letterbox.RoundAtMost | download_earth_from_eumetsat.py:143-148 | if p / q is at most m, so is its rounding, so the scaled side never exceeds the target |
| Letterbox.Fit | download_earth_from_eumetsat.py:140-153 | the canvas is the target; the binding axis is filled with offset 0; each side is in [1, target]; each offset centres the image, rounding down. The free side is 1 when the scaled length is at most half a pixel. Otherwise it is within half a pixel of the exact scaled length, which keeps the aspect ratio, and it is even on an exact tie |
| DateStamp.SanitizeDate | download_earth_from_eumetsat.py:70 | the sanitised date has the same length; each colon becomes `-`, each space `_`, and every other character stays |
| DateStamp.SanitizedDateIsSafe | download_earth_from_eumetsat.py:70 | the sanitised date holds no colon and no space, and only those characters change |
| DateStamp.SanitizeIdempotent | download_earth_from_eumetsat.py:70 | sanitising twice equals sanitising once |
| DateStamp.ImageFileName | download_earth_from_eumetsat.py:84 | the file name is `earth_`, the sanitised date and `.png`, and holds no colon and no space |

## Left out

- Fetching the image URL and date and downloading the image: network I/O. The date string is a parameter.
- Decoding the image, Lanczos resizing, pasting onto the canvas and saving: only their geometry is modelled.
- `color_mixing`, `saturate`, the mask blend and the `uint8` casts: floating-point numerics.
- Setting the wallpaper (feh, GNOME and other back-ends), the `shutil.which` check for `xrandr`, running it, and its exit status: process and file-system I/O. The mode listing is a parameter, given already split into lines.
- Argument parsing and `main`: command-line plumbing with no logic to prove.
- Decimal.ParseInt: reads only ASCII digits; `int()` also accepts other Unicode decimal digits.
- Decimal.ParseInt: has no digit limit. Recent Python versions (3.11 and later, and security releases of 3.8 to 3.10) refuse to convert a decimal text of more than 4300 digits by default, in both `int()` and `str()`. So `_parse_resolution("1" * 4301 + "x1")` is a format error there, and the model accepts it. Decimal.ParseIntOfDecimal and Resolution.IntToStringParses likewise hold only up to that limit in such an interpreter. The limit is configurable per process and differs between versions.
- Text.Lower: lower-cases ASCII letters only, and keeps the length. Python also lower-cases non-ASCII letters. Two of them become ASCII letters: the Kelvin sign U+212A becomes `k`, and U+0130 becomes `i` followed by U+0307, which makes the text one character longer. None of these characters is a separator, digit, sign, underscore or whitespace, before or after lower-casing. So `int()` refuses the piece holding one either way, and the parse has the same outcome.
- Letterbox.Fit: compares ratios and rounds on exact rationals. The source uses floating-point division, which can differ from the exact value when a ratio sits within rounding error of a tie or of the other ratio.
- Letterbox.Fit: requires positive image and target sizes. Target sizes come from the resolution parser, which only produces positive ones. The image fitted is the PNG the program saved, and the black margin at line 93 makes each of its sides at least 100 pixels. (A zero height alone would raise ZeroDivisionError; a zero width would not, since the else branch gives a width of 1.)
- Letterbox.Fit: has no float range. A target side too large for a float, such as one of 400 digits, is still read by `int()` (it is under the 4300-digit limit). The source then raises OverflowError at the division on line 141, 145 or 148, while Fit returns a placement.
- Raster.AddBlackMargin: takes a natural margin, because `np.pad` raises an error on negative widths.

=== FILE: datestamp.dfy ===
/** The output file name: the image's timestamp made safe for a file name
    by replacing colons and spaces. */
module DateStamp {
  import opened Text

  /** What one timestamp character becomes in the file name. */
  function SafeChar(c: char): char {
    if c == ':' then '-' else if c == ' ' then '_' else c
  }

  /** `date.replace(":", "-").replace(" ", "_")`. */
  function SanitizeDate(date: string): (s: string)
    ensures |s| == |date|
    ensures forall i :: 0 <= i < |date| ==> s[i] == SafeChar(date[i])
  {
    ReplaceChar(ReplaceChar(date, ':', '-'), ' ', '_')
  }

  /** The sanitised date holds no colon and no space; colons became dashes,
      spaces underscores, and every other character is kept in place. */
  lemma SanitizedDateIsSafe(date: string)
    ensures ':' !in SanitizeDate(date) && ' ' !in SanitizeDate(date)
    ensures forall i :: 0 <= i < |date| && date[i] == ':' ==> SanitizeDate(date)[i] == '-'
    ensures forall i :: 0 <= i < |date| && date[i] == ' ' ==> SanitizeDate(date)[i] == '_'
    ensures forall i :: 0 <= i < |date| && date[i] != ':' && date[i] != ' ' ==> SanitizeDate(date)[i] == date[i]
  {
    var s := SanitizeDate(date);
    assert forall i :: 0 <= i < |s| ==> s[i] != ':' && s[i] != ' ' by {
      forall i | 0 <= i < |s| ensures s[i] != ':' && s[i] != ' ' {
        assert s[i] == SafeChar(date[i]);
      }
    }
  }

  /** Sanitising twice is the same as sanitising once. */
  lemma SanitizeIdempotent(date: string)
    ensures SanitizeDate(SanitizeDate(date)) == SanitizeDate(date)
  {
    var s := SanitizeDate(date);
    SanitizedDateIsSafe(date);
    forall i | 0 <= i < |s| ensures SanitizeDate(s)[i] == s[i] {
      assert s[i] != ':' && s[i] != ' ';
    }
  }

  /** `earth_<date>.png`, the name the generated image is written under. */
  function ImageFileName(date: string): (name: string)
    ensures |name| == |date| + 10
    ensures name[..6] == "earth_" && name[|name| - 4..] == ".png"
    ensures name[6..|name| - 4] == SanitizeDate(date)
    ensures ':' !in name && ' ' !in name
  {
    SanitizedDateIsSafe(date);
    var name := "earth_" + SanitizeDate(date) + ".png";
    assert name[6..|name| - 4] == SanitizeDate(date);
    assert forall i :: 0 <= i < |name| ==> name[i] != ':' && name[i] != ' ' by {
      forall i | 0 <= i < |name| ensures name[i] != ':' && name[i] != ' ' {
        if 6 <= i < |name| - 4 {
          assert name[i] == SanitizeDate(date)[i - 6];
        }
      }
    }
    name
  }
}

=== FILE: decimal.dfy ===
/** Base-10 integer text: what Python's `int(s)` accepts and the value it
    gives, and `str(n)`, the canonical rendering it inverts. */
module Decimal {
  import opened Results
  import opened Text

  predicate IsDigit(c: char) {
    '0' <= c <= '9'
  }

  predicate AllDigits(s: string) {
    forall k :: 0 <= k < |s| ==> IsDigit(s[k])
  }

  function DigitValue(c: char): nat
    requires IsDigit(c)
  {
    c as int - '0' as int
  }

  function DigitChar(d: nat): char
    requires d < 10
  {
    ('0' as int + d) as char
  }

  /** The number a string of decimal digits denotes, most significant first. */
  function DecimalValue(ds: string): nat
    requires AllDigits(ds)
    decreases |ds|
  {
    if |ds| == 0 then 0 else 10 * DecimalValue(ds[..|ds| - 1]) + DigitValue(ds[|ds| - 1])
  }

  /** The body of a base-10 integer as `int()` reads it, Python's grammar
      `digit (["_"] digit)*`: digits, where a single underscore may separate
      two digits. Leading zeros are allowed. */
  predicate IsDigitGroups(b: string)
    decreases |b|
  {
    && |b| > 0
    && IsDigit(b[0])
    && (|b| == 1 || IsDigitGroups(b[1..]) || (b[1] == '_' && IsDigitGroups(b[2..])))
  }

  /** The characters an integer body is made of: digits and underscores. */
  predicate BodyChars(b: string) {
    forall k :: 0 <= k < |b| ==> IsDigit(b[k]) || b[k] == '_'
  }

  lemma {:induction false} DigitGroupsAlphabet(b: string)
    requires IsDigitGroups(b)
    ensures BodyChars(b)
    decreases |b|
  {
    if |b| > 1 {
      if IsDigitGroups(b[1..]) {
        DigitGroupsAlphabet(b[1..]);
        assert forall k :: 1 <= k < |b| ==> b[k] == b[1..][k - 1];
      } else {
        DigitGroupsAlphabet(b[2..]);
        assert forall k :: 2 <= k < |b| ==> b[k] == b[2..][k - 2];
      }
    }
  }

  /** The characters `int()` can accept anywhere in its argument. */
  predicate IsNumeralChar(c: char) {
    IsDigit(c) || c == '_' || c == '+' || c == '-' || IsBlank(IntSpaces, c)
  }

  /** The digits of a digit-group string, underscores removed. */
  function DropUnderscores(b: string): (ds: string)
    requires BodyChars(b)
    ensures AllDigits(ds)
    ensures |ds| <= |b|
    ensures '_' !in b ==> ds == b
    decreases |b|
  {
    if |b| == 0 then []
    else if b[0] == '_' then DropUnderscores(b[1..])
    else [b[0]] + DropUnderscores(b[1..])
  }

  /** The value of an unsigned integer body, None when it is malformed. */
  function ParseBody(b: string): (r: Option<nat>)
    ensures r.Some? <==> IsDigitGroups(b)
    ensures r.Some? ==> BodyChars(b)
  {
    if IsDigitGroups(b) then
      DigitGroupsAlphabet(b);
      Some(DecimalValue(DropUnderscores(b)))
    else None
  }

  /** The grammar of a stripped numeral: one optional sign, then an integer
      body. */
  predicate IsSignedNumeral(t: string) {
    || IsDigitGroups(t)
    || (|t| > 0 && (t[0] == '+' || t[0] == '-') && IsDigitGroups(t[1..]))
  }

  /** The value of a stripped numeral, None when it is malformed. */
  function ParseSigned(t: string): (r: Option<int>)
    ensures r.Some? <==> IsSignedNumeral(t)
    ensures r.Some? ==> |t| > 0 && forall k :: 0 <= k < |t| ==> IsNumeralChar(t[k])
  {
    if |t| > 0 && (t[0] == '+' || t[0] == '-') then
      match ParseBody(t[1..])
      case None => None
      case Some(m) =>
        assert forall k :: 1 <= k < |t| ==> t[k] == t[1..][k - 1];
        Some(if t[0] == '-' then -(m as int) else m)
    else
      match ParseBody(t)
      case None => None
      case Some(m) => Some(m)
  }

  /** `int(s)` with base 10: surrounding whitespace is ignored, then one
      optional sign and digit groups. None stands for the ValueError it
      raises. */
  function ParseInt(s: string): (r: Option<int>)
    ensures r.Some? <==> IsSignedNumeral(Strip(IntSpaces, s))
    ensures r.Some? ==> !AllSpace(IntSpaces, s)
  {
    ParseSigned(Strip(IntSpaces, s))
  }

  /** Whatever `int()` accepts is made only of digits, underscores, signs
      and whitespace: any other character makes it fail. */
  lemma ParseIntAlphabet(s: string)
    ensures ParseInt(s).Some? ==> forall k :: 0 <= k < |s| ==> IsNumeralChar(s[k])
  {
    if ParseInt(s).Some? {
      var t := Strip(IntSpaces, s);
      assert forall k :: 0 <= k < |t| ==> IsNumeralChar(t[k]);
      forall k | 0 <= k < |s| ensures IsNumeralChar(s[k]) {
        StripCover(IntSpaces, s, k);
      }
    }
  }

  /** The ASCII information separators 28 to 31 are whitespace to
      `str.isspace` but not to `int()`, which refuses any text holding one,
      even at its edges. */
  lemma InformationSeparatorRejected(s: string, k: nat)
    requires k < |s| && (28 as char) <= s[k] <= (31 as char)
    ensures ParseInt(s) == None
  {
    ParseIntAlphabet(s);
    assert !IsNumeralChar(s[k]);
  }

  /** `str(n)` for a natural number: its decimal digits without leading
      zeros ("0" for zero). */
  function ToDecimal(n: nat): (s: string)
    ensures |s| > 0
    ensures AllDigits(s)
    ensures |s| > 1 ==> s[0] != '0'
    ensures DecimalValue(s) == n
  {
    if n < 10 then [DigitChar(n)]
    else
      var prefix := ToDecimal(n / 10);
      var s := prefix + [DigitChar(n % 10)];
      assert s[..|s| - 1] == prefix;
      s
  }

  lemma DigitsHaveNoSpace(s: string)
    requires AllDigits(s)
    ensures NoSpace(IntSpaces, s)
  {
    forall k | 0 <= k < |s| ensures !IsBlank(IntSpaces, s[k]) {
      assert IsDigit(s[k]);
    }
  }

  /** `int()` reads a numeral without whitespace exactly as its stripped form. */
  lemma ParseIntNoSpace(s: string)
    requires NoSpace(IntSpaces, s)
    ensures ParseInt(s) == ParseSigned(s)
  {
    StripNoSpace(IntSpaces, s);
  }

  /** A non-empty run of plain digits is a well-formed integer body. */
  lemma {:induction false} PlainDigitsAreGroups(d: string)
    requires AllDigits(d) && |d| > 0
    ensures IsDigitGroups(d)
    ensures DropUnderscores(d) == d
    decreases |d|
  {
    assert IsDigit(d[0]);
    if |d| > 1 {
      PlainDigitsAreGroups(d[1..]);
    }
    assert '_' !in d by {
      assert forall k :: 0 <= k < |d| ==> d[k] != '_' by {
        forall k | 0 <= k < |d| ensures d[k] != '_' { assert IsDigit(d[k]); }
      }
    }
  }

  lemma ParseSignedUnsigned(d: string)
    requires AllDigits(d) && |d| > 0
    ensures ParseSigned(d) == Some(DecimalValue(d))
  {
    ParseBodyDigits(d);
    assert IsDigit(d[0]);
  }

  lemma ParseIntUnsigned(d: string)
    requires AllDigits(d) && |d| > 0
    ensures ParseInt(d) == Some(DecimalValue(d))
  {
    DigitsHaveNoSpace(d);
    ParseIntNoSpace(d);
    ParseSignedUnsigned(d);
  }

  lemma SignedDigitsHaveNoSpace(sign: char, d: string)
    requires sign == '-' || sign == '+'
    requires AllDigits(d)
    ensures NoSpace(IntSpaces, [sign] + d)
  {
    var s := [sign] + d;
    DigitsHaveNoSpace(d);
    forall k | 0 <= k < |s| ensures !IsBlank(IntSpaces, s[k]) {
      if k > 0 { assert s[k] == d[k - 1]; }
    }
  }

  lemma ParseBodyDigits(d: string)
    requires AllDigits(d) && |d| > 0
    ensures ParseBody(d) == Some(DecimalValue(d))
  {
    PlainDigitsAreGroups(d);
  }

  lemma ParseSignedMinus(t: string)
    requires |t| > 1 && t[0] == '-' && AllDigits(t[1..])
    ensures ParseSigned(t) == Some(-(DecimalValue(t[1..]) as int))
  {
    ParseBodyDigits(t[1..]);
  }

  lemma ParseSignedPlus(t: string)
    requires |t| > 1 && t[0] == '+' && AllDigits(t[1..])
    ensures ParseSigned(t) == Some(DecimalValue(t[1..]))
  {
    ParseBodyDigits(t[1..]);
  }

  lemma ParseIntNegative(t: string)
    requires |t| > 1 && t[0] == '-' && AllDigits(t[1..]) && NoSpace(IntSpaces, t)
    ensures ParseInt(t) == Some(-(DecimalValue(t[1..]) as int))
  {
    ParseIntNoSpace(t);
    ParseSignedMinus(t);
  }

  lemma ParseIntPositive(t: string)
    requires |t| > 1 && t[0] == '+' && AllDigits(t[1..]) && NoSpace(IntSpaces, t)
    ensures ParseInt(t) == Some(DecimalValue(t[1..]))
  {
    ParseIntNoSpace(t);
    ParseSignedPlus(t);
  }

  /** A minus sign before a digit string negates its value. The signed
      text is passed as `signed`, equal to `"-" + d`. */
  lemma ParseIntMinus(signed: string, d: string)
    requires AllDigits(d) && |d| > 0 && signed == "-" + d
    ensures ParseInt(signed) == Some(-(DecimalValue(d) as int))
  {
    assert signed[1..] == d;
    SignedDigitsHaveNoSpace('-', d);
    ParseIntNegative(signed);
  }

  /** A plus sign before a digit string is accepted and changes nothing.
      The signed text is passed as `signed`, equal to `"+" + d`. */
  lemma ParseIntPlus(signed: string, d: string)
    requires AllDigits(d) && |d| > 0 && signed == "+" + d
    ensures ParseInt(signed) == Some(DecimalValue(d))
  {
    assert signed[1..] == d;
    SignedDigitsHaveNoSpace('+', d);
    ParseIntPositive(signed);
  }

  /** Two digit-group strings joined directly or by one underscore form a
      digit-group string. */
  lemma {:induction false} DigitGroupsJoin(a: string, b: string)
    requires IsDigitGroups(a) && IsDigitGroups(b)
    ensures IsDigitGroups(a + b)
    ensures IsDigitGroups(a + ['_'] + b)
    decreases |a|
  {
    var joined, spaced := a + b, a + ['_'] + b;
    assert joined[0] == a[0] && spaced[0] == a[0];
    if |a| == 1 {
      assert joined[1..] == b;
      assert spaced[1] == '_' && spaced[2..] == b;
    } else if IsDigitGroups(a[1..]) {
      DigitGroupsJoin(a[1..], b);
      assert joined[1..] == a[1..] + b;
      assert spaced[1..] == a[1..] + ['_'] + b;
    } else {
      DigitGroupsJoin(a[2..], b);
      assert joined[1] == '_' && joined[2..] == a[2..] + b;
      assert spaced[1] == '_' && spaced[2..] == a[2..] + ['_'] + b;
    }
  }

  /** Dropping underscores works piece by piece. */
  lemma {:induction false} DropUnderscoresAppend(a: string, b: string)
    requires BodyChars(a)
    requires BodyChars(b)
    ensures DropUnderscores(a + b) == DropUnderscores(a) + DropUnderscores(b)
    decreases |a|
  {
    if |a| == 0 {
      assert a + b == b;
    } else {
      assert (a + b)[0] == a[0];
      assert (a + b)[1..] == a[1..] + b;
      DropUnderscoresAppend(a[1..], b);
    }
  }

  /** Two runs of digits joined by one underscore form an integer body. */
  lemma UnderscoreGroups(a: string, b: string, s: string)
    requires AllDigits(a) && AllDigits(b) && |a| > 0 && |b| > 0
    requires s == a + ['_'] + b
    ensures IsDigitGroups(s)
  {
    PlainDigitsAreGroups(a);
    PlainDigitsAreGroups(b);
    DigitGroupsJoin(a, b);
  }

  /** The digits of that body are the two runs. */
  lemma UnderscoreDigits(a: string, b: string, tail: string, s: string)
    requires AllDigits(a) && AllDigits(b)
    requires tail == ['_'] + b && s == a + tail
    ensures BodyChars(s)
    ensures DropUnderscores(s) == a + b
  {
    PlainBodyChars(a);
    PlainBodyChars(b);
    LeadingUnderscoreDropped(tail, b);
    DropUnderscoresAppend(a, tail);
    PlainDropUnderscores(a);
    PlainDropUnderscores(b);
  }

  lemma PlainBodyChars(d: string)
    requires AllDigits(d)
    ensures BodyChars(d)
  {
  }

  /** An underscore in front is simply dropped. */
  lemma LeadingUnderscoreDropped(tail: string, b: string)
    requires BodyChars(b) && tail == ['_'] + b
    ensures BodyChars(tail)
    ensures DropUnderscores(tail) == DropUnderscores(b)
  {
    assert tail[1..] == b;
  }

  /** A run of plain digits has no underscore to drop. */
  lemma PlainDropUnderscores(d: string)
    requires AllDigits(d)
    ensures DropUnderscores(d) == d
  {
    assert '_' !in d by {
      forall k | 0 <= k < |d| ensures d[k] != '_' { assert IsDigit(d[k]); }
    }
  }

  /** An underscore between two digit strings is accepted and ignored:
      `int("1_920") == 1920`. */
  lemma ParseIntUnderscore(a: string, b: string, s: string)
    requires AllDigits(a) && AllDigits(b) && |a| > 0 && |b| > 0
    requires s == a + ['_'] + b
    ensures ParseInt(s) == Some(DecimalValue(a + b))
  {
    UnderscoreGroups(a, b, s);
    JoinRegroup(a, ['_'], b, s);
    UnderscoreDigits(a, b, ['_'] + b, s);
    assert ParseBody(s) == Some(DecimalValue(a + b));
    assert s[0] == a[0];
    assert NoSpace(IntSpaces, s) by {
      forall k | 0 <= k < |s| ensures !IsBlank(IntSpaces, s[k]) {
        assert IsDigit(s[k]) || s[k] == '_';
      }
    }
    ParseIntNoSpace(s);
  }

  /** Removing one underscore from an integer body leaves its value
      unchanged, so `1_0_0` reads as `10_0` and then as `100`. Together with
      ParseBodyDigits this fixes the value of every body. */
  lemma ParseBodyDropsUnderscore(a: string, b: string, s: string, t: string)
    requires IsDigitGroups(a) && IsDigitGroups(b)
    requires s == a + ['_'] + b && t == a + b
    ensures ParseBody(s).Some? && ParseBody(s) == ParseBody(t)
  {
    var tail := ['_'] + b;
    DigitGroupsJoin(a, b);
    DigitGroupsAlphabet(a);
    DigitGroupsAlphabet(b);
    JoinRegroup(a, ['_'], b, s);
    LeadingUnderscoreDropped(tail, b);
    DropUnderscoresAppend(a, tail);
    DropUnderscoresAppend(a, b);
  }

  /** With no sign, a numeral is read as its body. */
  lemma ParseSignedBody(t: string)
    requires IsDigitGroups(t)
    ensures ParseSigned(t) == ParseBody(t)
  {
  }

  /** A sign in front of an integer body applies to the body's value: `-`
      negates it and `+` keeps it, whatever underscores the body holds. */
  lemma ParseSignedSign(t: string)
    requires |t| > 1 && (t[0] == '-' || t[0] == '+') && IsDigitGroups(t[1..])
    ensures ParseBody(t[1..]).Some?
    ensures t[0] == '-' ==> ParseSigned(t) == Some(-(ParseBody(t[1..]).value as int))
    ensures t[0] == '+' ==> ParseSigned(t) == Some(ParseBody(t[1..]).value)
  {
  }

  /** `int()` ignores any whitespace of its own kind around the numeral:
      `int(" 1920 ") == int("1920")`. */
  lemma ParseIntSpaced(pre: string, t: string, post: string)
    requires AllSpace(IntSpaces, pre) && AllSpace(IntSpaces, post) && NoSpace(IntSpaces, t)
    ensures ParseInt(pre + t + post) == ParseInt(t)
  {
    StripPadded(IntSpaces, pre, t, post);
    StripNoSpace(IntSpaces, t);
  }

  /** `int(str(n)) == n` for every natural n. */
  lemma ParseIntOfDecimal(n: nat)
    ensures ParseInt(ToDecimal(n)) == Some(n)
  {
    ParseIntUnsigned(ToDecimal(n));
  }
}

=== FILE: letterbox.dfy ===
/** The size arithmetic of fitting an image to a screen: scale it to fit
    inside the target while keeping its aspect ratio, then centre it on a
    black canvas of exactly the target size. */
module Letterbox {

  function Abs(x: int): nat {
    if x < 0 then -x else x
  }

  /** Python's `round()` taken exactly on the rational `p / q`: the nearest
      integer, ties going to the even neighbour. */
  function RoundHalfEven(p: nat, q: nat): (r: nat)
    requires q > 0
    ensures 2 * Abs(r * q - p) <= q
    ensures 2 * Abs(r * q - p) == q ==> r % 2 == 0
  {
    var f, rem := p / q, p % q;
    assert p == f * q + rem;
    assert (f + 1) * q == f * q + q;
    if 2 * rem < q then f
    else if 2 * rem > q then f + 1
    else if f % 2 == 0 then f
    else f + 1
  }

  /** A multiple of a positive `q` lying within `q` of zero is `-q`, `0`
      or `q`. */
  lemma SmallMultiple(d: int, q: int)
    requires q > 0 && -q <= d * q <= q
    ensures -1 <= d <= 1
  {
    assert d >= 2 ==> d * q >= 2 * q;
    assert d <= -2 ==> d * q <= -2 * q;
  }

  /** Two errors within half a step of zero that differ by `d` whole steps:
      either `d` is zero, or they sit at opposite ends, exactly half a step
      away. */
  lemma TwoNearErrors(e: int, e': int, d: int, q: int)
    requires q > 0 && 2 * Abs(e) <= q && 2 * Abs(e') <= q
    requires e' - e == d * q
    ensures -1 <= d <= 1
    ensures d != 0 ==> 2 * Abs(e) == q && 2 * Abs(e') == q
  {
    SmallMultiple(d, q);
  }

  /** Two integers that both meet the rounding conditions for `p / q` are
      equal. */
  lemma NearestIsUnique(p: int, q: int, r: int, r': int)
    requires q > 0
    requires 2 * Abs(r * q - p) <= q && (2 * Abs(r * q - p) == q ==> r % 2 == 0)
    requires 2 * Abs(r' * q - p) <= q && (2 * Abs(r' * q - p) == q ==> r' % 2 == 0)
    ensures r == r'
  {
    var d := r' - r;
    assert r' * q == r * q + d * q;
    TwoNearErrors(r * q - p, r' * q - p, d, q);
    assert r' % 2 != r % 2 || d == 0;
  }

  /** The two conditions pin the rounded value down: no other integer is
      as close, or as close and even. */
  lemma RoundIsUnique(p: nat, q: nat, r': int)
    requires q > 0
    requires 2 * Abs(r' * q - p) <= q
    requires 2 * Abs(r' * q - p) == q ==> r' % 2 == 0
    ensures r' == RoundHalfEven(p, q)
  {
    NearestIsUnique(p, q, RoundHalfEven(p, q), r');
  }

  /** `round(p / q)` is zero exactly when `p / q` is at most a half (a half
      itself rounds to the even zero). */
  lemma RoundIsZero(p: nat, q: nat)
    requires q > 0
    ensures RoundHalfEven(p, q) == 0 <==> 2 * p <= q
  {
    if 2 * p <= q {
      RoundIsUnique(p, q, 0);
    }
  }

  /** The side the fit computes, `max(1, int(round(num / den)))`: clamped to
      one pixel when `num / den` is at most a half, and otherwise the nearest
      integer to `num / den`, the even one on a tie. */
  function ScaledSide(num: nat, den: nat): (s: int)
    requires den > 0
    ensures s >= 1
    ensures 2 * num <= den ==> s == 1
    ensures 2 * num > den ==> 2 * Abs(s * den - num) <= den
    ensures 2 * num > den && 2 * Abs(s * den - num) == den ==> s % 2 == 0
  {
    RoundIsZero(num, den);
    Max1(RoundHalfEven(num, den))
  }

  /** Where the resized image lands: the canvas size, the size the image is
      scaled to, and the offset of its top-left corner on the canvas. */
  datatype Placement = Placement(
    canvasWidth: int, canvasHeight: int,
    width: int, height: int,
    offsetX: int, offsetY: int)

  /** The image is relatively wider than the target (`image_ratio >
      target_ratio`, compared exactly), so the width is what limits it. */
  predicate WidthBinds(imgW: int, imgH: int, targetW: int, targetH: int) {
    imgW * targetH > targetW * imgH
  }

  function Max1(x: int): int {
    if x < 1 then 1 else x
  }

  /** Scaling never overshoots the target on the free axis: if `p / q` is at
      most `m`, so is its rounding. */
  lemma RoundAtMost(p: nat, q: nat, m: nat)
    requires q > 0 && p <= q * m
    ensures RoundHalfEven(p, q) <= m
  {
    var f, rem := p / q, p % q;
    var gap: int := m - f;
    assert p == f * q + rem;
    assert gap * q == q * m - f * q;
    assert gap <= -1 ==> gap * q + q <= 0;
    assert f <= m;
    assert f == m ==> rem == 0;
  }

  /** Letterbox placement of an `imgW` x `imgH` image on a `targetW` x
      `targetH` screen. */
  function Fit(imgW: int, imgH: int, targetW: int, targetH: int): (p: Placement)
    requires imgW > 0 && imgH > 0 && targetW > 0 && targetH > 0
    ensures p.canvasWidth == targetW && p.canvasHeight == targetH
    ensures WidthBinds(imgW, imgH, targetW, targetH) ==> p.width == targetW && p.offsetX == 0
    ensures !WidthBinds(imgW, imgH, targetW, targetH) ==> p.height == targetH && p.offsetY == 0
    ensures 1 <= p.width <= targetW && 1 <= p.height <= targetH
    ensures 0 <= p.offsetX && 2 * p.offsetX <= targetW - p.width <= 2 * p.offsetX + 1
    ensures 0 <= p.offsetY && 2 * p.offsetY <= targetH - p.height <= 2 * p.offsetY + 1
    ensures WidthBinds(imgW, imgH, targetW, targetH) ==>
              && (2 * (targetW * imgH) <= imgW ==> p.height == 1)
              && (2 * (targetW * imgH) > imgW ==>
                    && 2 * Abs(p.height * imgW - targetW * imgH) <= imgW
                    && (2 * Abs(p.height * imgW - targetW * imgH) == imgW ==> p.height % 2 == 0))
    ensures !WidthBinds(imgW, imgH, targetW, targetH) ==>
              && (2 * (targetH * imgW) <= imgH ==> p.width == 1)
              && (2 * (targetH * imgW) > imgH ==>
                    && 2 * Abs(p.width * imgH - targetH * imgW) <= imgH
                    && (2 * Abs(p.width * imgH - targetH * imgW) == imgH ==> p.width % 2 == 0))
  {
    if WidthBinds(imgW, imgH, targetW, targetH) then
      RoundAtMost(targetW * imgH, imgW, targetH);
      var h := ScaledSide(targetW * imgH, imgW);
      Placement(targetW, targetH, targetW, h, 0, (targetH - h) / 2)
    else
      RoundAtMost(targetH * imgW, imgH, targetW);
      var w := ScaledSide(targetH * imgW, imgH);
      Placement(targetW, targetH, w, targetH, (targetW - w) / 2, 0)
  }
}

=== FILE: raster.dfy ===
/** The geometric steps of the image pipeline: cutting rows off the bottom
    of a raster and framing it in a black margin. */
module Raster {

  /** An image as a numpy array of shape (height, width, channels): rows of
      pixels of channel samples. Width and channel count are recorded so
      that a raster with no rows still has them. */
  datatype Raster<T> = Raster(width: nat, channels: nat, rows: seq<seq<seq<T>>>) {

    function Height(): nat {
      |rows|
    }

    /** Every row has `width` pixels and every pixel `channels` samples. */
    predicate Valid() {
      forall i :: 0 <= i < |rows| ==>
        |rows[i]| == width && forall j :: 0 <= j < width ==> |rows[i][j]| == channels
    }
  }

  /** Where Python's slice `[:stop]` of a sequence of length `len` ends: a
      negative stop counts from the end and is clamped at the start. */
  function SliceEnd(stop: int, len: nat): (e: nat)
    ensures e <= len
  {
    if stop < 0 then (if len + stop < 0 then 0 else len + stop)
    else if stop < len then stop else len
  }

  /** `image[:-n, :, :]`: drops the bottom `n` rows. Slicing quirks are
      kept: `n == 0` slices to `[:0]` and leaves nothing, as does any `n`
      of at least the height; a negative `n` keeps the first `-n` rows. */
  function CropBottom<T>(img: Raster<T>, n: int): (r: Raster<T>)
    ensures r.width == img.width && r.channels == img.channels
    ensures img.Valid() ==> r.Valid()
    ensures 0 < n < img.Height() ==> r.rows == img.rows[..img.Height() - n]
    ensures n == 0 || n >= img.Height() ==> r.rows == []
    ensures n < 0 ==> r.rows == img.rows[..if -n < img.Height() then -n else img.Height()]
  {
    Raster(img.width, img.channels, img.rows[..SliceEnd(-n, img.Height())])
  }

  /** `np.pad` with `n` samples of `black` before and after the row and
      column axes, none on the channel axis. */
  function AddBlackMargin<T>(img: Raster<T>, n: nat, black: T): (r: Raster<T>)
    requires img.Valid()
    ensures r.Valid()
    ensures r.Height() == img.Height() + 2 * n
    ensures r.width == img.width + 2 * n
    ensures r.channels == img.channels
    ensures forall i, j, c :: 0 <= i < img.Height() && 0 <= j < img.width && 0 <= c < img.channels
              ==> r.rows[i + n][j + n][c] == img.rows[i][j][c]
    ensures forall i, j, c :: 0 <= i < r.Height() && 0 <= j < r.width && 0 <= c < r.channels
              && !(n <= i < n + img.Height() && n <= j < n + img.width)
              ==> r.rows[i][j][c] == black
  {
    var h, w := img.Height(), img.width;
    var blackPixel := seq(img.channels, _ => black);
    var rows := seq(h + 2 * n, i requires 0 <= i < h + 2 * n =>
      seq(w + 2 * n, j requires 0 <= j < w + 2 * n =>
        if n <= i < n + h && n <= j < n + w then img.rows[i - n][j - n] else blackPixel));
    Raster(w + 2 * n, img.channels, rows)
  }

  /** The raster left after removing `n` rows and columns from each edge. */
  function Interior<T>(img: Raster<T>, n: nat): (r: Raster<T>)
    requires img.Valid()
    requires 2 * n <= img.Height() && 2 * n <= img.width
    ensures r.Valid()
    ensures r.Height() == img.Height() - 2 * n && r.width == img.width - 2 * n
  {
    var h := img.Height();
    Raster(img.width - 2 * n, img.channels,
      seq(h - 2 * n, i requires 0 <= i < h - 2 * n => img.rows[i + n][n..img.width - n]))
  }

  /** Removing the margin again gives back the original raster. */
  lemma MarginRoundTrip<T>(img: Raster<T>, n: nat, black: T)
    requires img.Valid()
    ensures Interior(AddBlackMargin(img, n, black), n) == img
  {
    var padded := AddBlackMargin(img, n, black);
    var back := Interior(padded, n);
    forall i | 0 <= i < img.Height() ensures back.rows[i] == img.rows[i] {
      forall j | 0 <= j < img.width ensures back.rows[i][j] == img.rows[i][j] {
        assert back.rows[i][j] == padded.rows[i + n][j + n];
        forall c | 0 <= c < img.channels ensures back.rows[i][j][c] == img.rows[i][j][c] {
        }
      }
    }
  }

  /** A margin of zero width leaves the raster unchanged. */
  lemma ZeroMarginIsIdentity<T>(img: Raster<T>, black: T)
    requires img.Valid()
    ensures AddBlackMargin(img, 0, black) == img
  {
    var r := AddBlackMargin(img, 0, black);
    forall i | 0 <= i < img.Height() ensures r.rows[i] == img.rows[i] {
      forall j | 0 <= j < img.width ensures r.rows[i][j] == img.rows[i][j] {
        forall c | 0 <= c < img.channels ensures r.rows[i][j][c] == img.rows[i][j][c] {
        }
      }
    }
  }

  /** Rows cut off the bottom of the downloaded image. */
  const BottomCrop: nat := 79

  /** Width of the black frame drawn around it. */
  const BlackMargin: nat := 50

  /** The geometric part of the image pipeline: crop, then frame. A source
      image taller than the crop keeps its top rows at an offset of the
      margin; a shorter one leaves only the black frame. */
  function FrameImage<T>(img: Raster<T>, black: T): (r: Raster<T>)
    requires img.Valid()
    ensures r.Valid()
    ensures r.width == img.width + 2 * BlackMargin && r.channels == img.channels
    ensures img.Height() > BottomCrop ==> r.Height() == img.Height() - BottomCrop + 2 * BlackMargin
    ensures img.Height() <= BottomCrop ==> r.Height() == 2 * BlackMargin
    ensures forall i, j, c :: 0 <= i < img.Height() - BottomCrop && 0 <= j < img.width && 0 <= c < img.channels
              ==> r.rows[i + BlackMargin][j + BlackMargin][c] == img.rows[i][j][c]
    ensures forall i, j, c :: 0 <= i < r.Height() && 0 <= j < r.width && 0 <= c < r.channels
              && !(BlackMargin <= i < r.Height() - BlackMargin && BlackMargin <= j < BlackMargin + img.width)
              ==> r.rows[i][j][c] == black
  {
    var cropped := CropBottom(img, BottomCrop);
    var r := AddBlackMargin(cropped, BlackMargin, black);
    assert forall i :: 0 <= i < img.Height() - BottomCrop ==> cropped.rows[i] == img.rows[i];
    r
  }
}

=== FILE: resolution.dfy ===
/** Reading a target screen size: the `WIDTHxHEIGHT` argument parser and the
    choice of the current mode in the display server's mode listing. */
module Resolution {
  import opened Results
  import opened Text
  import opened Decimal

  /** A screen size in pixels. */
  datatype Resolution = Resolution(width: int, height: int)

  /** The three ways of failing to obtain a resolution. */
  datatype ResolutionError =
    | BadFormat      // not of the form WIDTHxHEIGHT with integer sides
    | NotPositive    // both sides are integers, but one is zero or negative
    | NoCurrentMode  // no line of the mode listing is marked current

  /** The separator, after the input has been lower-cased. */
  const Separator: char := 'x'

  /** Reads `WIDTHxHEIGHT`, case-insensitively in the separator: the text is
      lower-cased, cut at its first `x`, and each side read with `int()`. */
  function ParseResolution(value: string): (r: Result<Resolution, ResolutionError>)
    ensures r.Ok? ==> r.value.width > 0 && r.value.height > 0
    ensures r.Err? ==> r.error != NoCurrentMode
    ensures Separator !in Lower(value) ==> r == Err(BadFormat)
    ensures Separator in Lower(value) ==>
      var (ws, hs) := SplitOnce(Lower(value), Separator).value;
      && (r == Err(BadFormat) <==> ParseInt(ws).None? || ParseInt(hs).None?)
      && (r.Ok? <==> ParseInt(ws).Some? && ParseInt(hs).Some?
                     && ParseInt(ws).value > 0 && ParseInt(hs).value > 0)
      && (r.Ok? ==> r.value == Resolution(ParseInt(ws).value, ParseInt(hs).value))
  {
    match SplitOnce(Lower(value), Separator)
    case None => Err(BadFormat)
    case Some((ws, hs)) =>
      match (ParseInt(ws), ParseInt(hs))
      case (Some(w), Some(h)) =>
        if w <= 0 || h <= 0 then Err(NotPositive) else Ok(Resolution(w, h))
      case _ => Err(BadFormat)
  }

  /** Python's `str(n)` for any integer: the decimal digits of its
      magnitude, after a minus sign when it is negative. */
  function IntToString(n: int): (s: string)
    ensures n >= 0 ==> AllDigits(s) && |s| > 0 && DecimalValue(s) == n
    ensures n < 0 ==> |s| > 1 && s[0] == '-' && AllDigits(s[1..]) && DecimalValue(s[1..]) == -n
    ensures n >= 0 && |s| > 1 ==> s[0] != '0'
    ensures n < 0 && |s| > 2 ==> s[1] != '0'
  {
    if n < 0 then "-" + ToDecimal(-n) else ToDecimal(n)
  }

  lemma IntToStringParses(n: int)
    ensures ParseInt(IntToString(n)) == Some(n)
  {
    if n < 0 {
      ParseIntMinus(IntToString(n), ToDecimal(-n));
    } else {
      ParseIntOfDecimal(n);
    }
  }

  /** `str(n)` holds digits and perhaps a leading minus: nothing that
      lower-casing changes, and no separator. */
  lemma IntToStringPlain(n: int)
    ensures Separator !in IntToString(n)
    ensures Lower(IntToString(n)) == IntToString(n)
  {
    var d := ToDecimal(if n < 0 then -n else n);
    var s := IntToString(n);
    forall k | 0 <= k < |s| ensures s[k] != Separator && LowerChar(s[k]) == s[k] {
      var j := if n < 0 then k - 1 else k;
      if j >= 0 {
        assert s[k] == d[j];
        assert IsDigit(d[j]);
      }
    }
  }

  /** Lower-casing `WIDTH<sep>HEIGHT` only turns an uppercase separator
      into the lowercase one, when neither side has letters. */
  lemma LowerJoined(ws: string, hs: string, sep: char)
    requires sep == 'x' || sep == 'X'
    requires Lower(ws) == ws && Lower(hs) == hs
    ensures Lower(ws + [sep] + hs) == ws + [Separator] + hs
  {
    var value := ws + [sep] + hs;
    var lowered := ws + [Separator] + hs;
    forall k | 0 <= k < |value| ensures LowerChar(value[k]) == lowered[k] {
      if k < |ws| {
        assert value[k] == ws[k] && lowered[k] == ws[k];
        assert LowerChar(ws[k]) == Lower(ws)[k];
      } else if k > |ws| {
        assert value[k] == hs[k - |ws| - 1] && lowered[k] == hs[k - |ws| - 1];
        assert LowerChar(hs[k - |ws| - 1]) == Lower(hs)[k - |ws| - 1];
      }
    }
  }

  /** Rendering two integers as `WIDTHxHEIGHT` (or `WIDTHXHEIGHT`) and
      parsing the text gives them back exactly when both are positive; any
      other pair of integers is refused as non-positive. */
  lemma ParseRendered(w: int, h: int, sep: char)
    requires sep == 'x' || sep == 'X'
    ensures ParseResolution(IntToString(w) + [sep] + IntToString(h))
         == if w > 0 && h > 0 then Ok(Resolution(w, h)) else Err(NotPositive)
  {
    var ws, hs := IntToString(w), IntToString(h);
    IntToStringParses(w);
    IntToStringParses(h);
    IntToStringPlain(w);
    IntToStringPlain(h);
    LowerJoined(ws, hs, sep);
    ParseReadablePieces(ws + [sep] + hs, ws, hs, w, h);
  }

  /** A text whose lower-cased form is cut at its first separator into two
      pieces `int()` reads is decided by the signs of their values alone. */
  lemma ParseReadablePieces(value: string, ws: string, hs: string, w: int, h: int)
    requires Lower(value) == ws + [Separator] + hs && Separator !in ws
    requires ParseInt(ws) == Some(w) && ParseInt(hs) == Some(h)
    ensures ParseResolution(value) == if w > 0 && h > 0 then Ok(Resolution(w, h)) else Err(NotPositive)
  {
    SplitOnceAtFirst(ws, Separator, hs);
  }

  /** Any character `int()` cannot read, other than the first separator,
      makes the text malformed: `abcx10` is refused, and so is `1x2x3`,
      because the text is cut at its first separator only and the second
      one lands in the height text. */
  lemma StrayCharacterRejected(value: string, k: nat)
    requires k < |value|
    requires !IsNumeralChar(Lower(value)[k])
    requires Lower(value)[k] == Separator ==> Separator in Lower(value)[..k]
    ensures ParseResolution(value) == Err(BadFormat)
  {
    var l := Lower(value);
    if Separator in l {
      var (ws, hs) := SplitOnce(l, Separator).value;
      StrayCharacterInPiece(l, ws, hs, k);
    }
  }

  /** A character `int()` cannot read, standing anywhere but at the cut,
      lands in one of the two pieces and makes that piece unreadable. */
  lemma StrayCharacterInPiece(l: string, ws: string, hs: string, k: nat)
    requires l == ws + [Separator] + hs && Separator !in ws
    requires k < |l| && !IsNumeralChar(l[k])
    requires l[k] == Separator ==> Separator in l[..k]
    ensures ParseInt(ws).None? || ParseInt(hs).None?
  {
    assert l[..|ws|] == ws;
    assert k != |ws| by {
      assert l[|ws|] == Separator;
    }
    ParseIntAlphabet(ws);
    ParseIntAlphabet(hs);
    if k < |ws| {
      assert l[k] == ws[k];
    } else {
      assert l[k] == hs[k - |ws| - 1];
    }
  }

  /** The mode token of a listing line: `line.strip().split()[0]`. A line
      marked current holds a `*`, so it is never blank. */
  function CurrentModeToken(line: string): (tok: string)
    requires '*' in line
    ensures |tok| > 0 && NoSpace(StrSpaces, tok)
    ensures |tok| <= |Strip(StrSpaces, line)|
    ensures tok == Strip(StrSpaces, line)[..|tok|]
    ensures |tok| < |Strip(StrSpaces, line)| ==> IsBlank(StrSpaces, Strip(StrSpaces, line)[|tok|])
  {
    var t := Strip(StrSpaces, line);
    assert !AllSpace(StrSpaces, line) by {
      var k :| 0 <= k < |line| && line[k] == '*';
      assert !IsBlank(StrSpaces, line[k]);
    }
    assert !IsBlank(StrSpaces, t[0]);
    FirstField(t)
  }

  /** The index of the first line holding a `*`, the line the `for` loop
      stops at; None when the loop runs to the end. */
  function FirstStarred(lines: seq<string>): (r: Option<nat>)
    ensures r.None? <==> forall i :: 0 <= i < |lines| ==> '*' !in lines[i]
    ensures r.Some? ==> r.value < |lines| && '*' in lines[r.value]
    ensures r.Some? ==> forall i :: 0 <= i < r.value ==> '*' !in lines[i]
    decreases |lines|
  {
    if |lines| == 0 then None
    else if '*' in lines[0] then Some(0)
    else
      assert forall i :: 1 <= i < |lines| ==> lines[i] == lines[1..][i - 1];
      match FirstStarred(lines[1..])
      case None => None
      case Some(k) => Some(k + 1)
  }

  /** The resolution named by the first line of the mode listing that holds
      a `*` (the current mode); NoCurrentMode when no line does. */
  function DetectResolution(lines: seq<string>): (r: Result<Resolution, ResolutionError>)
    ensures r == Err(NoCurrentMode) <==> forall i :: 0 <= i < |lines| ==> '*' !in lines[i]
    ensures forall k :: 0 <= k < |lines| && '*' in lines[k] && (forall i :: 0 <= i < k ==> '*' !in lines[i])
              ==> r == ParseResolution(CurrentModeToken(lines[k]))
  {
    match FirstStarred(lines)
    case None => Err(NoCurrentMode)
    case Some(j) =>
      assert forall k :: 0 <= k < |lines| && '*' in lines[k] && (forall i :: 0 <= i < k ==> '*' !in lines[i])
               ==> k == j;
      ParseResolution(CurrentModeToken(lines[j]))
  }

  /** Lines after the current one are never looked at. */
  lemma DetectIgnoresLaterLines(lines: seq<string>, more: seq<string>, k: nat)
    requires k < |lines| && '*' in lines[k]
    ensures DetectResolution(lines + more) == DetectResolution(lines)
  {
    var j := FirstStarred(lines).value;
    var all := lines + more;
    assert all[j] == lines[j];
    assert forall i :: 0 <= i < j ==> all[i] == lines[i];
  }
}

=== FILE: results.dfy ===
/** Failure-carrying values used in place of the Python exceptions the
    wallpaper script raises. */
module Results {

  /** A value that may be absent: the outcome of a conversion that can fail
      without a reason worth reporting (Python's `int()` raising ValueError). */
  datatype Option<+T> = None | Some(value: T)

  /** A value or the reason it could not be produced. */
  datatype Result<+T, +E> = Ok(value: T) | Err(error: E)
}

=== FILE: text.dfy ===
/** The handful of Python `str` operations the script relies on:
    `lower`, `strip`, `split`, `split(sep, 1)` and `replace`, for the
    one-character arguments it passes them. */
module Text {
  import opened Results

  /** Python's `str.isspace` for one character: the ASCII controls TAB to CR,
      the four ASCII information separators, SPACE, and the Unicode
      separators Python treats as whitespace. */
  predicate IsSpace(c: char) {
    || ('\t' <= c <= '\r')
    || ((28 as char) <= c <= (31 as char))
    || c == ' '
    || c == (0x85 as char)
    || c == (0xA0 as char)
    || c == (0x1680 as char)
    || ((0x2000 as char) <= c <= (0x200A as char))
    || c == (0x2028 as char)
    || c == (0x2029 as char)
    || c == (0x202F as char)
    || c == (0x205F as char)
    || c == (0x3000 as char)
  }

  /** Which whitespace an operation skips. `str.strip` and `str.split` skip
      every `str.isspace` character. `int()` skips the ASCII ones only as C's
      `isspace` knows them, so the four information separators 28 to 31 are
      not whitespace to it, while the non-ASCII ones are. */
  datatype Spaces = StrSpaces | IntSpaces

  predicate IsBlank(sp: Spaces, c: char) {
    IsSpace(c) && (sp.IntSpaces? ==> !((28 as char) <= c <= (31 as char)))
  }

  predicate AllSpace(sp: Spaces, s: string) {
    forall k :: 0 <= k < |s| ==> IsBlank(sp, s[k])
  }

  predicate NoSpace(sp: Spaces, s: string) {
    forall k :: 0 <= k < |s| ==> !IsBlank(sp, s[k])
  }

  /** `str.lower` on ASCII letters; every other character is kept. */
  function LowerChar(c: char): char {
    if 'A' <= c <= 'Z' then (c as int + 32) as char else c
  }

  /** `s.lower()`: no uppercase ASCII letter is left, each one having become
      its lowercase partner 32 code points further on, and nothing else
      changes. */
  function Lower(s: string): (r: string)
    ensures |r| == |s|
    ensures forall k :: 0 <= k < |r| ==> !('A' <= r[k] <= 'Z')
    ensures forall k :: 0 <= k < |s| && 'A' <= s[k] <= 'Z' ==> r[k] as int == s[k] as int + 32
    ensures forall k :: 0 <= k < |s| && !('A' <= s[k] <= 'Z') ==> r[k] == s[k]
  {
    seq(|s|, k requires 0 <= k < |s| => LowerChar(s[k]))
  }

  /** A lowercase letter occurs in `s.lower()` exactly when it occurs in `s`
      in either case. */
  lemma LowerFindsBothCases(s: string, c: char)
    requires 'a' <= c <= 'z'
    ensures c in Lower(s) <==> c in s || (c as int - 32) as char in s
  {
    var l := Lower(s);
    var upper := (c as int - 32) as char;
    if c in l {
      var k :| 0 <= k < |l| && l[k] == c;
      assert s[k] == c || s[k] == upper;
    }
    if c in s {
      var k :| 0 <= k < |s| && s[k] == c;
      assert l[k] == c;
    }
    if upper in s {
      var k :| 0 <= k < |s| && s[k] == upper;
      assert l[k] == c;
    }
  }

  /** Lower-casing twice is lower-casing once. */
  lemma LowerIdempotent(s: string)
    ensures Lower(Lower(s)) == Lower(s)
  {
    var l := Lower(s);
    assert forall k :: 0 <= k < |l| ==> Lower(l)[k] == l[k];
  }

  /** `s.replace(from, to)` for one-character `from` and `to`: every `from`
      becomes `to`, every other character stays where it was, and no `from`
      is left unless it is also `to`. */
  function ReplaceChar(s: string, from: char, to: char): (r: string)
    ensures |r| == |s|
    ensures from != to ==> from !in r
    ensures forall k :: 0 <= k < |s| && s[k] == from ==> r[k] == to
    ensures forall k :: 0 <= k < |s| && s[k] != from ==> r[k] == s[k]
  {
    seq(|s|, k requires 0 <= k < |s| => if s[k] == from then to else s[k])
  }

  /** Replacing a character that does not occur changes nothing. */
  lemma ReplaceAbsent(s: string, from: char, to: char)
    requires from !in s
    ensures ReplaceChar(s, from, to) == s
  {
    assert forall k :: 0 <= k < |s| ==> ReplaceChar(s, from, to)[k] == s[k];
  }

  /** How many whitespace characters `s` starts with. */
  function LeadingSpaces(sp: Spaces, s: string): (n: nat)
    ensures n <= |s|
    ensures AllSpace(sp, s[..n])
    ensures n < |s| ==> !IsBlank(sp, s[n])
    decreases |s|
  {
    if |s| == 0 || !IsBlank(sp, s[0]) then 0 else 1 + LeadingSpaces(sp, s[1..])
  }

  /** How many whitespace characters `s` ends with. */
  function TrailingSpaces(sp: Spaces, s: string): (n: nat)
    ensures n <= |s|
    ensures AllSpace(sp, s[|s| - n..])
    ensures n < |s| ==> !IsBlank(sp, s[|s| - n - 1])
    decreases |s|
  {
    if |s| == 0 || !IsBlank(sp, s[|s| - 1]) then 0
    else
      var n := TrailingSpaces(sp, s[..|s| - 1]);
      TrailingStep(sp, s, n);
      1 + n
  }

  /** One more whitespace character at the end extends the trailing run. */
  lemma TrailingStep(sp: Spaces, s: string, n: nat)
    requires |s| > 0 && IsBlank(sp, s[|s| - 1]) && n < |s|
    requires AllSpace(sp, s[..|s| - 1][|s| - 1 - n..])
    requires n < |s| - 1 ==> !IsBlank(sp, s[..|s| - 1][|s| - 1 - n - 1])
    ensures AllSpace(sp, s[|s| - (n + 1)..])
    ensures n + 1 < |s| ==> !IsBlank(sp, s[|s| - (n + 1) - 1])
  {
    var init, tail := s[..|s| - 1], s[|s| - (n + 1)..];
    forall k | 0 <= k < |tail| ensures IsBlank(sp, tail[k]) {
      if k < n {
        assert tail[k] == init[|s| - 1 - n..][k];
      } else {
        assert tail[k] == s[|s| - 1];
      }
    }
    if n + 1 < |s| {
      assert s[|s| - (n + 1) - 1] == init[|s| - 1 - n - 1];
    }
  }

  /** How many non-whitespace characters `s` starts with. */
  function LeadingWord(s: string): (n: nat)
    ensures n <= |s|
    ensures NoSpace(StrSpaces, s[..n])
    ensures n < |s| ==> IsBlank(StrSpaces, s[n])
    decreases |s|
  {
    if |s| == 0 || IsBlank(StrSpaces, s[0]) then 0 else 1 + LeadingWord(s[1..])
  }

  /** `s` without its leading and trailing whitespace of kind `sp`:
      `s.strip()` for StrSpaces, the trimming `int()` does for IntSpaces. The
      result is the slice `s[lo..lo + |r|]` where `lo` counts the leading
      whitespace. */
  function Strip(sp: Spaces, s: string): (r: string)
    ensures LeadingSpaces(sp, s) + |r| <= |s|
    ensures r == s[LeadingSpaces(sp, s)..LeadingSpaces(sp, s) + |r|]
    ensures AllSpace(sp, s[..LeadingSpaces(sp, s)])
    ensures AllSpace(sp, s[LeadingSpaces(sp, s) + |r|..])
    ensures |r| > 0 ==> !IsBlank(sp, r[0]) && !IsBlank(sp, r[|r| - 1])
    ensures |r| == 0 <==> AllSpace(sp, s)
  {
    var lo := LeadingSpaces(sp, s);
    var hi := |s[lo..]| - TrailingSpaces(sp, s[lo..]);
    StripShape(sp, s, lo, hi);
    s[lo..lo + hi]
  }

  /** Strip's contract, for the slice its body takes. */
  lemma StripShape(sp: Spaces, s: string, lo: nat, hi: nat)
    requires lo == LeadingSpaces(sp, s) && hi == |s[lo..]| - TrailingSpaces(sp, s[lo..])
    ensures lo + hi <= |s|
    ensures AllSpace(sp, s[..lo])
    ensures AllSpace(sp, s[lo + hi..])
    ensures hi > 0 ==> !IsBlank(sp, s[lo..lo + hi][0]) && !IsBlank(sp, s[lo..lo + hi][hi - 1])
    ensures hi == 0 <==> AllSpace(sp, s)
  {
    StripEnds(sp, s, lo, hi);
    StripBlankIff(sp, s, lo, hi);
  }

  /** The stripped slice `s[lo..lo + hi]` sits inside `s`, is followed only
      by whitespace, and neither starts nor ends with whitespace. */
  lemma StripEnds(sp: Spaces, s: string, lo: nat, hi: nat)
    requires lo == LeadingSpaces(sp, s) && hi == |s[lo..]| - TrailingSpaces(sp, s[lo..])
    ensures lo + hi <= |s|
    ensures AllSpace(sp, s[lo + hi..])
    ensures hi > 0 ==> !IsBlank(sp, s[lo]) && !IsBlank(sp, s[lo + hi - 1])
  {
    var rest := s[lo..];
    DropDrop(s, lo, hi);
    if hi > 0 {
      assert s[lo + hi - 1] == rest[hi - 1];
    }
  }

  /** Nothing is left after stripping exactly when the text is all
      whitespace. */
  lemma StripBlankIff(sp: Spaces, s: string, lo: nat, hi: nat)
    requires lo == LeadingSpaces(sp, s) && hi == |s[lo..]| - TrailingSpaces(sp, s[lo..])
    ensures hi == 0 <==> AllSpace(sp, s)
  {
    var rest := s[lo..];
    if hi == 0 {
      assert rest == rest[hi..];
      AllSpaceJoin(sp, s[..lo], rest);
      assert s == s[..lo] + rest;
    }
  }

  lemma AllSpaceJoin(sp: Spaces, a: string, b: string)
    requires AllSpace(sp, a) && AllSpace(sp, b)
    ensures AllSpace(sp, a + b)
  {
    forall k | 0 <= k < |a + b| ensures IsBlank(sp, (a + b)[k]) {
      if k >= |a| { assert (a + b)[k] == b[k - |a|]; }
    }
  }

  /** `t.split()[0]`: the first maximal run of non-whitespace characters.
      Python raises IndexError when `t` is blank, hence the precondition. */
  function FirstField(t: string): (r: string)
    requires !AllSpace(StrSpaces, t)
    ensures |r| > 0
    ensures NoSpace(StrSpaces, r)
    ensures LeadingSpaces(StrSpaces, t) + |r| <= |t|
    ensures AllSpace(StrSpaces, t[..LeadingSpaces(StrSpaces, t)])
    ensures r == t[LeadingSpaces(StrSpaces, t)..LeadingSpaces(StrSpaces, t) + |r|]
    ensures LeadingSpaces(StrSpaces, t) + |r| < |t| ==> IsBlank(StrSpaces, t[LeadingSpaces(StrSpaces, t) + |r|])
  {
    var lo := LeadingSpaces(StrSpaces, t);
    var rest := t[lo..];
    rest[..LeadingWord(rest)]
  }

  /** `s.split(sep, 1)` for a one-character `sep`, as a pair when it yields
      two parts and None when `sep` does not occur (Python then yields one
      part, which the caller's two-name unpacking rejects). */
  function SplitOnce(s: string, sep: char): (r: Option<(string, string)>)
    ensures r.None? <==> sep !in s
    ensures r.Some? ==> s == r.value.0 + [sep] + r.value.1 && sep !in r.value.0
    decreases |s|
  {
    if |s| == 0 then None
    else if s[0] == sep then Some(([], s[1..]))
    else match SplitOnce(s[1..], sep)
      case None => None
      case Some((a, b)) => Some(([s[0]] + a, b))
  }

  /** Stripping a string that holds no whitespace leaves it unchanged. */
  lemma StripNoSpace(sp: Spaces, s: string)
    requires NoSpace(sp, s)
    ensures Strip(sp, s) == s
  {
    if |s| > 0 {
      assert !IsBlank(sp, s[0]) && !IsBlank(sp, s[|s| - 1]);
      assert LeadingSpaces(sp, s) == 0;
      assert s[0..] == s;
      assert TrailingSpaces(sp, s) == 0;
    }
  }


  /** `s[i..][j..]` is `s[i + j..]`. */
  lemma DropDrop<T>(s: seq<T>, i: nat, j: nat)
    requires i + j <= |s|
    ensures s[i..][j..] == s[i + j..]
  {
  }

  /** Dropping the last element of `a + b`, for non-empty `b`, drops it from `b`. */
  lemma DropLastJoin<T>(a: seq<T>, b: seq<T>)
    requires |b| > 0
    ensures (a + b)[|a + b| - 1] == b[|b| - 1]
    ensures (a + b)[..|a + b| - 1] == a + b[..|b| - 1]
  {
  }

  /** The two halves of `s == a + b` are its prefix and suffix. */
  lemma JoinParts<T>(a: seq<T>, b: seq<T>, s: seq<T>)
    requires s == a + b
    ensures s[..|a|] == a && s[|a|..] == b
  {
  }

  /** Concatenation regrouped to the right. */
  lemma JoinRegroup<T>(a: seq<T>, b: seq<T>, c: seq<T>, s: seq<T>)
    requires s == a + b + c
    ensures s == a + (b + c)
  {
  }

  /** Whitespace before a text adds exactly its own length to the leading
      whitespace count. */
  lemma {:induction false} LeadingSpacesSkip(sp: Spaces, pre: string, rest: string)
    requires AllSpace(sp, pre)
    ensures LeadingSpaces(sp, pre + rest) == |pre| + LeadingSpaces(sp, rest)
    decreases |pre|
  {
    if |pre| > 0 {
      assert (pre + rest)[0] == pre[0];
      assert (pre + rest)[1..] == pre[1..] + rest;
      LeadingSpacesSkip(sp, pre[1..], rest);
    } else {
      assert pre + rest == rest;
    }
  }

  /** Whitespace after a text adds exactly its own length to the trailing
      whitespace count. */
  lemma {:induction false} TrailingSpacesSkip(sp: Spaces, rest: string, post: string)
    requires AllSpace(sp, post)
    ensures TrailingSpaces(sp, rest + post) == TrailingSpaces(sp, rest) + |post|
    decreases |post|
  {
    var s := rest + post;
    if |post| > 0 {
      var shorter := post[..|post| - 1];
      DropLastJoin(rest, post);
      assert IsBlank(sp, post[|post| - 1]);
      assert AllSpace(sp, shorter);
      TrailingSpacesSkip(sp, rest, shorter);
    } else {
      assert s == rest;
    }
  }

  /** Stripping removes exactly the whitespace around a text that has none
      inside it. */
  lemma StripPadded(sp: Spaces, pre: string, t: string, post: string)
    requires AllSpace(sp, pre) && AllSpace(sp, post) && NoSpace(sp, t)
    ensures Strip(sp, pre + t + post) == t
  {
    var s := pre + t + post;
    var tail := t + post;
    JoinRegroup(pre, t, post, s);
    LeadingSpacesSkip(sp, pre, tail);
    if |t| > 0 {
      assert tail[0] == t[0];
      assert LeadingSpaces(sp, tail) == 0;
      JoinParts(pre, tail, s);
      TrailingSpacesSkip(sp, t, post);
      assert TrailingSpaces(sp, t) == 0;
      JoinParts(t, post, tail);
    } else {
      assert s == pre + post;
      AllSpaceJoin(sp, pre, post);
    }
  }

  /** `split(sep, 1)` cuts at the first occurrence of `sep`, whatever follows. */
  lemma {:induction false} SplitOnceAtFirst(a: string, sep: char, b: string)
    requires sep !in a
    ensures SplitOnce(a + [sep] + b, sep) == Some((a, b))
    decreases |a|
  {
    var s := a + [sep] + b;
    if |a| > 0 {
      assert s[1..] == a[1..] + [sep] + b;
      SplitOnceAtFirst(a[1..], sep, b);
      assert [a[0]] + a[1..] == a;
    }
  }

  /** Every character of `s` is either whitespace or a character of
      `Strip(sp, s)`, in the same order. */
  lemma StripCover(sp: Spaces, s: string, k: nat)
    requires k < |s|
    ensures IsBlank(sp, s[k]) || (LeadingSpaces(sp, s) <= k < LeadingSpaces(sp, s) + |Strip(sp, s)|
                                  && Strip(sp, s)[k - LeadingSpaces(sp, s)] == s[k])
  {
    var lo, r := LeadingSpaces(sp, s), Strip(sp, s);
    if k < lo {
      var pre := s[..lo];
      assert pre[k] == s[k];
      assert IsBlank(sp, pre[k]);
    } else if k < lo + |r| {
      assert r[k - lo] == s[k];
    } else {
      var post := s[lo + |r|..];
      assert post[k - lo - |r|] == s[k];
      assert IsBlank(sp, post[k - lo - |r|]);
    }
  }
}
